=== FILE: README.md ===
# Threshold multisig, modelled in Dafny

This project models the Anchor (Solana) threshold-multisig program in
`programs/multisig/src/lib.rs`. A `Multisig` account holds a threshold, a
nonce, an owner-set sequence number and an owner count. Each owner of the
multisig has a small `MultisigOwner` record account. A `Transaction` account
holds a proposed instruction, a snapshot of the multisig's sequence number, a
one-shot `did_execute` flag and the list of `u64` hashes of the owners who
have signed. There are five instruction handlers:

- `create_multisig` checks the owner list and the threshold. It creates one
  owner record per owner and fills in the multisig.
- `create_transaction` checks that the proposer is the owner named by the
  given owner record. It counts the proposer as the first signer.
- `approve` appends the hash of the record's owner, and fails with
  `AlreadySigned` if that hash is already there.
- `update_owners_and_threshold` walks the remaining accounts. It closes
  every owner record among them and creates a record for every other
  account. It then bumps the sequence number and sets a new threshold.
- `execute_transaction` dispatches the stored instruction once, with the
  multisig's program-derived signer marked as signing. It needs at least
  `threshold` signatures.

Module layout:

- `primitives.dfy` (`Primitives`): keys, the machine-integer ranges, the
  program's error enum and the runtime's abort reasons.
- `instructions.dfy` (`Instructions`): the account-reference conversions and
  the instruction that execution dispatches. Pure functions.
- `layout.dfy` (`Layout`): the account sizes requested from the runtime.
- `owners.dfy` (`Owners`): owner records and the owner-list check. It also
  gives the two record loops as specification functions over the record
  store and proves their properties.
- `multisig.dfy` (`MultisigProgram`): `Multisig` and `Transaction` as
  classes whose fields the handlers rewrite in place. The record store is the
  class `OwnerAccounts`. Each handler is a method whose loops are proved
  against the specification functions in `Owners`.
- `governance.dfy` (`Governance`): properties of handlers run one after
  another, plus a worked example in which a multisig amends its own owner
  set.

Modelling choices:

- A handler that fails leaves every account unchanged, because the runtime
  rolls back all writes of a failed instruction. The methods build new
  records and counts in local variables and commit them only on success.
  Every handler states that nothing changes on its error path.
- The Anchor account checks are modelled as error outcomes, not as
  preconditions. These are the sequence-number `constraint` (reported as
  `ConstraintRaw`) and `has_one = multisig` (reported as `ConstraintHasOne`).
  An owner record account that holds no record is reported as
  `AccountDidNotDeserialize`. Anchor decodes all accounts first and then
  checks the constraints in field order, and the outcome cascades follow that
  order. With errors instead of preconditions, "a stale transaction can no
  longer be approved or executed" can be stated as a result.
- Every `unwrap` on a missing remaining account, owner or bump is an abort
  (`Panic`). So is the unchecked `owners_amount -= 1`, `owners_amount += 1`
  or `owner_set_seqno += 1` leaving its integer range.
- The hash of an owner key is a parameter `hash: Pubkey -> U64`, never
  assumed injective. Instruction dispatch is a parameter
  `invoke: Instruction -> bool`.

What the model makes explicit about the code as written:

- `approve` never compares its `owner` signer with the owner record. The
  `owner` parameter of `Approve` does not occur in any of its contracts.
- `create_transaction` never checks that the owner record belongs to the
  multisig.
- `create_multisig`'s `InvalidOwnersLen` check can never fire.
- `update_owners_and_threshold` closes any owner record passed to it,
  including a record of a different multisig. The owner count then stops
  matching the multisig's live records, as the example run
  `ClosingForeignRecordBreaksCount` shows.
  `ToggleOwnersCount` therefore carries the hypothesis `ClosesOnlyOwn`.

## Model

| member | source | states |
|---|---|---|
| Instructions.ToAccountMeta | programs/multisig/src/lib.rs:392-399 | whichever runtime constructor writability selects, the key, the signer flag and the writability carry over |
| Instructions.FromAccountMeta | programs/multisig/src/lib.rs:401-409 | converting a runtime reference to the stored form and back gives the same runtime reference |
| Instructions.AccountRoundTrip | programs/multisig/src/lib.rs:392-409 | converting a stored reference to the runtime's form and back gives the same stored reference |
| Instructions.ToInstruction | programs/multisig/src/lib.rs:363-371 | the instruction for a transaction keeps its program id and data, has one account per stored account, and each account converts back to the stored one |
| Instructions.SignIfPda | programs/multisig/src/lib.rs:198-204 | one rewritten account keeps its key and writability and signs iff it signed before or its key is the multisig signer's |
| Instructions.PdaSigned | programs/multisig/src/lib.rs:195-205 | rewriting the instruction's accounts keeps program id, data, length, order, keys and writability; an account signs iff it signed before or is the multisig signer's key |
| Instructions.DispatchedInstruction | programs/multisig/src/lib.rs:194-205 | the dispatched instruction, stated against the stored transaction: same program, data and accounts in order, with signing set exactly for the multisig signer in addition to the stored flags |
| Layout.OwnerSpaceRequired | programs/multisig/src/lib.rs:379-383 | the 72 bytes of an owner record are its discriminator plus two 32-byte keys |
| Layout.MultisigSpaceRequired | programs/multisig/src/lib.rs:328-331 | whenever the struct size covers the fixed Borsh-serialized fields of `Multisig` (lib.rs:320-325), the allocated space holds the discriminator and the serialized account for any name |
| Layout.TransactionSpaceRequired | programs/multisig/src/lib.rs:354-361 | whenever the struct sizes cover the serialized fixed fields plus one signer hash and a serialized account reference, the allocated space holds the discriminator and the transaction as create_transaction writes it (one signer) |
| Layout.MultisigSpaceLinear | programs/multisig/src/lib.rs:328-331 | `MultisigSpaceRequired`, the formula of lib.rs:330, grows by exactly one 32-byte key per owner and one byte per UTF-8 byte of the name |
| Layout.TransactionSpaceLinear | programs/multisig/src/lib.rs:354-361 | `TransactionSpaceRequired`, the formula of lib.rs:356-359, grows by exactly one account struct per account, one byte per data byte and one byte per UTF-8 byte of the name |
| Owners.AssertUniqueOwners | programs/multisig/src/lib.rs:411-419 | succeeds iff no two positions of the owner list hold the same key; otherwise fails with `UniqueOwners` |
| Owners.BuildMultisigOwner | programs/multisig/src/lib.rs:421-453 | creating a record succeeds iff the address holds none (else `AccountInUse`); on success the address holds (multisig, owner) and every other record is kept |
| Owners.CreateOwnerRecords | programs/multisig/src/lib.rs:51-65 | the record loop of create_multisig, position by position (unwrap of account and bump, then record creation); it fails only by panic or `AccountInUse` |
| Owners.CreateOwnerRecordsSucceeds | programs/multisig/src/lib.rs:51-65 | the record loop succeeds iff every owner has a remaining account and a bump and those accounts are distinct fresh addresses |
| Owners.CreateOwnerRecordsEffect | programs/multisig/src/lib.rs:51-65 | after the loop, the i-th remaining account holds (multisig, owners[i]); old records are kept; no other address gains a record |
| Owners.CreateOwnerRecordsCount | programs/multisig/src/lib.rs:51-65 | after the loop, the multisig owns exactly one more record per owner |
| Owners.ToggleOwners | programs/multisig/src/lib.rs:147-168 | the toggle loop of update_owners_and_threshold, position by position (close and decrement, or unwrap owner and bump, create and increment); it aborts only by panic (missing owner or bump, count leaving the u64 range) |
| Owners.ToggleOwnersCount | programs/multisig/src/lib.rs:147-168 | when every closed record belongs to the multisig, the loop keeps owner count minus live records constant, so a correct count stays correct |
| Owners.ToggleOwnersEffect | programs/multisig/src/lib.rs:147-168 | with distinct remaining accounts, each account holding a record loses it, each other one gets (multisig, owners[k]) for its position k, and every other address is unchanged |
| Owners.ClosingForeignRecordBreaksCount | programs/multisig/src/lib.rs:148-151 | on an example run, closing another multisig's record lowers this multisig's count while its own records stay, so count and records disagree |
| MultisigProgram.Multisig.constructor | programs/multisig/src/lib.rs:235-240 | a newly initialised multisig account has all fields zero |
| MultisigProgram.Transaction.constructor | programs/multisig/src/lib.rs:257-262 | a newly initialised transaction account has all fields zero and no signers |
| MultisigProgram.CreateMultisig | programs/multisig/src/lib.rs:37-76 | checks in order: duplicates give `UniqueOwners`, a threshold outside 1 to the number of owners gives `InvalidThreshold`, `InvalidOwnersLen` never happens; succeeds iff those pass and the record loop succeeds; on success the fields are as given with seqno 0, the number of owners as count, a valid threshold and one record per owner, and the count matches the multisig's records when it had none before; on failure nothing changes |
| MultisigProgram.CreateTransaction | programs/multisig/src/lib.rs:80-107 | fails iff the owner record is missing or names a different owner than the proposer; on success the transaction copies the proposal, snapshots the seqno, is not executed and has exactly the proposer's hash as signer; on failure nothing changes |
| MultisigProgram.Approve | programs/multisig/src/lib.rs:110-131 | outcome cascade: missing record, seqno mismatch, foreign transaction, record of another multisig (`InvalidOwner`), hash already present (`AlreadySigned`), else success; success appends exactly the record owner's hash; signers stay duplicate-free; failure changes nothing |
| MultisigProgram.UpdateOwnersAndThreshold | programs/multisig/src/lib.rs:135-179 | outcome cascade: `UniqueOwners`, toggle-loop panic, seqno overflow, threshold outside 1..updated count (`InvalidThreshold`), else success; success sets records and count as the toggle loop computes, raises the seqno by one iff there were remaining accounts, sets the threshold, which is then valid, and, when every closed record belongs to the multisig, keeps a correct owner count correct; failure changes nothing |
| MultisigProgram.ExecuteTransaction | programs/multisig/src/lib.rs:182-217 | outcome cascade: seqno mismatch, foreign transaction, `AlreadyExecuted`, fewer signers than the threshold (`NotEnoughSigners`), failed dispatch of the PDA-signed instruction, else success; only success marks the transaction executed |
| Governance.ExecuteAtMostOnce | programs/multisig/src/lib.rs:184-214 | after a successful execution a second one fails with `AlreadyExecuted`, whatever its dispatch would do; after a failed one a retry succeeds exactly when all checks and its own dispatch pass |
| Governance.ApproveTwice | programs/multisig/src/lib.rs:119-129 | repeating a successful approval fails with `AlreadySigned` and the signers keep the single appended hash |
| Governance.UpdateStalesPendingTransactions | programs/multisig/src/lib.rs:169-171 | after a successful update with remaining accounts, a transaction created before it can be neither approved nor executed, and is left unchanged |
| Governance.TeamRecords | programs/multisig/src/lib.rs:51-65 | the record loop for owners 1, 2, 3 at addresses 11, 12, 13 yields exactly those three records |
| Governance.AmendedTeamRecords | programs/multisig/src/lib.rs:147-168 | toggling addresses 11, 12, 21..24 on that team closes two records and creates four, leaving five records and count five |
| Governance.FoundTeam | programs/multisig/src/lib.rs:37-76 | creating the example multisig succeeds with threshold 2, three owners, seqno 0 and the team's records |
| Governance.StageProposals | programs/multisig/src/lib.rs:80-131 | a proposal by owner 1 approved by owner 2 carries both hashes; a second proposal by owner 3 approved by owner 2 carries its two |
| Governance.AmendmentDispatch | programs/multisig/src/lib.rs:194-205 | the example's stored owner-update instruction is dispatched to the program with its accounts in order, all writable, and only the multisig signer signing |
| Governance.SelfAmendment | programs/multisig/src/lib.rs:133-179 | the multisig executes its own owner-update instruction with two of three signatures, the dispatched instruction has only the multisig signer signing, the update ends with five owners, seqno 1 and threshold 2, and the other pending transaction then fails the seqno constraint |

## Left out

- Cross-program invocation (`invoke_signed`) and the system program's `create_account` are foreign runtime calls. Dispatch is the parameter `invoke`, and its failure aborts execution. The record creation is `BuildMultisigOwner`, which fails only when the address already holds a record. An address holding some other kind of account is not distinguished from a free one.
- ExecuteTransaction: the effects of the dispatched instruction are not applied inside the method. `SelfAmendment` calls the owner update as a separate step after the execution, and the instruction data that would select the update and carry its arguments is left empty.
- Program-derived address derivation from seeds and bump, and the `seeds`/`bump` constraints on `multisig_signer`. The signer key is an opaque parameter.
- The signer check on `multisig_signer` in the `Auth` accounts of `update_owners_and_threshold`. Only the multisig itself can sign this way; the model lets any caller run the update.
- Rent, the minimum balance and the lamport transfer when a record is closed. These are economic plumbing; closing is modelled as deleting the record.
- Account serialization and discriminators. A key is a natural number and only equality on keys matters.
- `hash_pubkey`'s `DefaultHasher`. It is the parameter `hash`.
- Names are sized by their UTF-8 bytes: the space functions take the encoded name. The handlers keep names as strings, and the encoding between the two is not modelled.
- Whether a transaction account still has room after approvals: each approval adds an 8-byte hash that the allocated space does not count, and how many fit depends on the struct sizes, which stay parameters.
- The struct sizes inside `space_required`. They depend on the compiler's layout and are the parameters of `StructSizes`.
- Integer wrap-around. The unchecked `-= 1` and `+= 1` on `owners_amount` and `owner_set_seqno` abort with `Panic` when they leave the range, instead of wrapping.
- CreateMultisig: requires fewer than 2^64 owners, so that `owners.len() as u64` does not truncate; a longer list cannot fit in an instruction anyway.
- The `payer`/`init` funding of new multisig and transaction accounts, and the check that a transaction account is newly created. The methods write into the account they are given.

=== FILE: governance.dfy ===
/**
 * What the handlers guarantee when they are run one after another: execution
 * happens at most once, an owner cannot sign twice, and changing the owner
 * set makes every pending transaction of the multisig unusable.
 */
module Governance {
  import opened Primitives
  import opened Instructions
  import opened Owners
  import opened MultisigProgram

  /** Once a transaction has executed, a second execution fails with
      `AlreadyExecuted`, whatever its dispatch would do (`retry`). A failed
      first execution leaves the transaction executable again. */
  method ExecuteAtMostOnce(multisig: Multisig, multisigSigner: Pubkey, tx: Transaction,
                           invoke: Instruction -> bool, retry: Instruction -> bool)
    returns (first: Outcome, second: Outcome)
    modifies tx`didExecute
    ensures first.Ok? ==> second == Err(Code(AlreadyExecuted)) && tx.didExecute
    ensures first.Err? ==>
      (second.Ok? <==>
        && multisig.ownerSetSeqno == tx.ownerSetSeqno && tx.multisig == multisig.key
        && !old(tx.didExecute) && |tx.signers| >= multisig.threshold
        && retry(PdaSigned(ToInstruction(tx.programId, tx.accounts, tx.data), multisigSigner)))
  {
    first := ExecuteTransaction(multisig, multisigSigner, tx, invoke);
    second := ExecuteTransaction(multisig, multisigSigner, tx, retry);
  }

  /** A repeated approval through the same owner record is an error, not a
      no-op, and leaves the signers as the first approval made them. */
  method ApproveTwice(multisig: Multisig, tx: Transaction, store: OwnerAccounts, ownerAddress: Pubkey,
                      owner: Pubkey, hash: Pubkey -> U64)
    returns (first: Outcome, second: Outcome)
    modifies tx`signers
    ensures first.Ok? ==> second == Err(Code(AlreadySigned))
    ensures first.Ok? ==> ownerAddress in store.records
    ensures first.Ok? ==> tx.signers == old(tx.signers) + [hash(store.records[ownerAddress].owner)]
  {
    first := Approve(multisig, tx, store, ownerAddress, owner, hash);
    second := Approve(multisig, tx, store, ownerAddress, owner, hash);
  }

  /** Once an update with at least one remaining account succeeds, a
      transaction created before it can neither be approved nor executed. */
  method UpdateStalesPendingTransactions(multisig: Multisig, store: OwnerAccounts, remaining: seq<Pubkey>,
                                         args: UpdateOwnersAndThresholdArgs, tx: Transaction,
                                         ownerAddress: Pubkey, owner: Pubkey, hash: Pubkey -> U64,
                                         multisigSigner: Pubkey, invoke: Instruction -> bool)
    returns (updated: Outcome, approved: Outcome, executed: Outcome)
    requires tx.multisig == multisig.key && tx.ownerSetSeqno == multisig.ownerSetSeqno
    requires |remaining| > 0
    modifies multisig`ownersAmount, multisig`ownerSetSeqno, multisig`threshold, store`records
    modifies tx`signers, tx`didExecute
    ensures updated.Ok? ==> approved.Err? && executed == Err(ConstraintRaw)
    ensures updated.Ok? ==> tx.signers == old(tx.signers) && tx.didExecute == old(tx.didExecute)
  {
    updated := UpdateOwnersAndThreshold(multisig, store, remaining, args);
    approved := Approve(multisig, tx, store, ownerAddress, owner, hash);
    executed := ExecuteTransaction(multisig, multisigSigner, tx, invoke);
  }

  /** The records of the example team: owners 1, 2 and 3 of multisig 100 at addresses 11, 12 and 13. */
  const Team: Records := map[11 := MultisigOwner(100, 1), 12 := MultisigOwner(100, 2), 13 := MultisigOwner(100, 3)]

  lemma TeamRecords()
    ensures CreateOwnerRecords(map[], 100, [1, 2, 3], [11, 12, 13], [0, 0, 0], 0) == Success(Team)
  {
  }

  /** Closing the records at 11 and 12 and creating records for owners 4 to 7
      at 21 to 24 leaves five records and a count of five. */
  lemma AmendedTeamRecords()
    ensures ToggleOwners(Team, 3, 100, [11, 12, 21, 22, 23, 24], [1, 2, 4, 5, 6, 7], [0, 0, 0, 0, 0, 0], 0)
         == Success(OwnerSet(map[13 := MultisigOwner(100, 3), 21 := MultisigOwner(100, 4), 22 := MultisigOwner(100, 5),
                                 23 := MultisigOwner(100, 6), 24 := MultisigOwner(100, 7)], 5))
  {
    var remaining: seq<Pubkey> := [11, 12, 21, 22, 23, 24];
    var owners: seq<Pubkey> := [1, 2, 4, 5, 6, 7];
    var bumps: seq<U8> := [0, 0, 0, 0, 0, 0];
    var r1 := map[12 := MultisigOwner(100, 2), 13 := MultisigOwner(100, 3)];
    var r2 := map[13 := MultisigOwner(100, 3)];
    var r3 := r2[21 := MultisigOwner(100, 4)];
    var r4 := r3[22 := MultisigOwner(100, 5)];
    var r5 := r4[23 := MultisigOwner(100, 6)];
    var r6 := r5[24 := MultisigOwner(100, 7)];
    assert Team - {11} == r1;
    assert r1 - {12} == r2;
    assert ToggleOwners(Team, 3, 100, remaining, owners, bumps, 0) == ToggleOwners(r1, 2, 100, remaining, owners, bumps, 1);
    assert ToggleOwners(r1, 2, 100, remaining, owners, bumps, 1) == ToggleOwners(r2, 1, 100, remaining, owners, bumps, 2);
    assert ToggleOwners(r2, 1, 100, remaining, owners, bumps, 2) == ToggleOwners(r3, 2, 100, remaining, owners, bumps, 3);
    assert ToggleOwners(r3, 2, 100, remaining, owners, bumps, 3) == ToggleOwners(r4, 3, 100, remaining, owners, bumps, 4);
    assert ToggleOwners(r4, 3, 100, remaining, owners, bumps, 4) == ToggleOwners(r5, 4, 100, remaining, owners, bumps, 5);
    assert ToggleOwners(r5, 4, 100, remaining, owners, bumps, 5) == ToggleOwners(r6, 5, 100, remaining, owners, bumps, 6);
  }

  /** The example team's multisig: owners 1, 2 and 3 with their records at
      addresses 11, 12 and 13, and threshold two. */
  method FoundTeam() returns (multisig: Multisig, store: OwnerAccounts, created: Outcome)
    ensures created == Ok && fresh(multisig) && fresh(store)
    ensures multisig.key == 100 && multisig.threshold == 2 && multisig.ownersAmount == 3 && multisig.ownerSetSeqno == 0
    ensures store.records == Team
  {
    multisig := new Multisig(100);
    store := new OwnerAccounts(map[]);
    TeamRecords();
    created := CreateMultisig(multisig, store, [11, 12, 13], CreateMultisigArgs([1, 2, 3], 2, 255, "team", [0, 0, 0]));
  }

  /** A stand-in for the hash of an owner key in the example. */
  function DemoHash(k: Pubkey): U64 {
    k % 1000
  }

  /** The multisig program's own id in the example. */
  const ProgramId: Pubkey := 1

  /** The multisig's program-derived signer in the example. */
  const TeamSigner: Pubkey := 500

  /** The accounts of the owner update the team proposes: the multisig, its
      signer (stored as not signing), and the six remaining accounts 11, 12 and
      21 to 24. The system program and rent accounts are left out. */
  const AmendmentAccounts: seq<TransactionAccount> :=
    [TransactionAccount(100, false, true), TransactionAccount(TeamSigner, false, true),
     TransactionAccount(11, false, true), TransactionAccount(12, false, true),
     TransactionAccount(21, false, true), TransactionAccount(22, false, true),
     TransactionAccount(23, false, true), TransactionAccount(24, false, true)]

  /** Owner 1 proposes the amendment and owner 2 approves it; owner 3 proposes
      another transaction, which owner 2 approves as well. */
  method StageProposals(multisig: Multisig, store: OwnerAccounts) returns (proposal: Transaction, pending: Transaction)
    requires multisig.key == 100 && multisig.ownerSetSeqno == 0 && store.records == Team
    ensures fresh(proposal) && fresh(pending)
    ensures proposal.multisig == 100 && proposal.ownerSetSeqno == 0 && !proposal.didExecute
    ensures proposal.programId == ProgramId && proposal.accounts == AmendmentAccounts && proposal.data == []
    ensures proposal.signers == [1, 2]
    ensures pending.multisig == 100 && pending.ownerSetSeqno == 0 && !pending.didExecute && pending.signers == [3, 2]
  {
    proposal := new Transaction();
    var proposed := CreateTransaction(multisig, proposal, store, 11, 1,
                                      CreateTransactionArgs(ProgramId, AmendmentAccounts, [], "amend"), DemoHash);
    var approved := Approve(multisig, proposal, store, 12, 2, DemoHash);
    pending := new Transaction();
    var otherProposed := CreateTransaction(multisig, pending, store, 13, 3, CreateTransactionArgs(0, [], [], "pending"), DemoHash);
    var otherApproved := Approve(multisig, pending, store, 12, 2, DemoHash);
  }

  /** The owner update accepts its instruction only when the multisig's
      signer, its second account, signs it. */
  predicate SignedBySigner(ix: Instruction) {
    |ix.accounts| >= 2 && ix.accounts[1].pubkey == TeamSigner && ix.accounts[1].isSigner
  }

  /** The instruction the amendment dispatches targets the program, keeps
      its accounts writable and in order, and has exactly the multisig's
      signer signing, so the owner update accepts it. */
  lemma AmendmentDispatch()
    ensures var ix := PdaSigned(ToInstruction(ProgramId, AmendmentAccounts, []), TeamSigner);
      && ix.programId == ProgramId && |ix.accounts| == |AmendmentAccounts|
      && (forall i :: 0 <= i < |ix.accounts| ==>
            ix.accounts[i].pubkey == AmendmentAccounts[i].pubkey && ix.accounts[i].isWritable
            && (ix.accounts[i].isSigner <==> i == 1))
      && SignedBySigner(ix)
  {
    DispatchedInstruction(ProgramId, AmendmentAccounts, [], TeamSigner);
  }

  /** A multisig of three owners with threshold two replaces two owners by
      four new ones through its own transaction: the proposer signs by
      proposing, one other owner approves, and the transaction executes. The
      instruction it dispatches targets the program, with the multisig's
      signer marked as signing and no other account signing. The update it
      describes leaves five owners, sequence number one and threshold two. A
      second transaction proposed before the update is stale afterwards,
      although it had enough signatures. */
  method SelfAmendment() returns (dispatched: Instruction, executed: Outcome, updated: Outcome,
                                  ownersAmount: int, seqno: int, threshold: int, staleExecuted: Outcome)
    ensures dispatched.programId == ProgramId && |dispatched.accounts| == |AmendmentAccounts|
    ensures forall i :: 0 <= i < |dispatched.accounts| ==>
      dispatched.accounts[i].pubkey == AmendmentAccounts[i].pubkey && dispatched.accounts[i].isWritable
      && (dispatched.accounts[i].isSigner <==> i == 1)
    ensures executed == Ok && updated == Ok
    ensures ownersAmount == 5 && seqno == 1 && threshold == 2
    ensures staleExecuted == Err(ConstraintRaw)
  {
    var multisig, store, created := FoundTeam();
    var proposal, pending := StageProposals(multisig, store);
    dispatched := PdaSigned(ToInstruction(proposal.programId, proposal.accounts, proposal.data), TeamSigner);
    AmendmentDispatch();
    // The runtime checks the transaction before its instruction runs, and the
    // instruction (the owner update below) runs before the transaction is
    // marked executed; neither step reads what the other writes.
    executed := ExecuteTransaction(multisig, TeamSigner, proposal, SignedBySigner);
    // Close the records of owners 1 and 2, create records for owners 4 to 7.
    AmendedTeamRecords();
    updated := UpdateOwnersAndThreshold(multisig, store, [11, 12, 21, 22, 23, 24],
                                        UpdateOwnersAndThresholdArgs([1, 2, 4, 5, 6, 7], [0, 0, 0, 0, 0, 0], 2));
    ownersAmount, seqno, threshold := multisig.ownersAmount, multisig.ownerSetSeqno, multisig.threshold;
    staleExecuted := ExecuteTransaction(multisig, TeamSigner, pending, SignedBySigner);
  }
}

=== FILE: instructions.dfy ===
/**
 * Account references and instructions: the stored form of an account
 * reference, the runtime's form, the conversions between them, and the
 * instruction that execute_transaction dispatches.
 */
module Instructions {
  import opened Primitives

  /** An account reference as a transaction stores it. */
  datatype TransactionAccount = TransactionAccount(pubkey: Pubkey, isSigner: bool, isWritable: bool)

  /** An account reference as the runtime's instruction carries it. */
  datatype AccountMeta = AccountMeta(pubkey: Pubkey, isSigner: bool, isWritable: bool)

  /** A cross-program instruction: target program, account references, opaque data. */
  datatype Instruction = Instruction(programId: Pubkey, accounts: seq<AccountMeta>, data: seq<U8>)

  /** The runtime's constructor for a read-only reference. */
  function NewReadonly(pubkey: Pubkey, isSigner: bool): AccountMeta {
    AccountMeta(pubkey, isSigner, false)
  }

  /** The runtime's constructor for a writable reference. */
  function NewWritable(pubkey: Pubkey, isSigner: bool): AccountMeta {
    AccountMeta(pubkey, isSigner, true)
  }

  /** Conversion back from the runtime's form; it copies the three fields, so
      converting the result to the runtime's form gives `meta` again. */
  function FromAccountMeta(meta: AccountMeta): (account: TransactionAccount)
    ensures ToAccountMeta(account) == meta
  {
    TransactionAccount(meta.pubkey, meta.isSigner, meta.isWritable)
  }

  /** Conversion to the runtime's form, choosing the constructor by
      writability; whichever constructor it picks, the key, the signer flag and
      the writability all carry over. */
  function ToAccountMeta(account: TransactionAccount): (meta: AccountMeta)
    ensures meta.pubkey == account.pubkey && meta.isSigner == account.isSigner && meta.isWritable == account.isWritable
  {
    match account.isWritable
    case false => NewReadonly(account.pubkey, account.isSigner)
    case true => NewWritable(account.pubkey, account.isSigner)
  }

  /** The other round trip: a stored reference survives the runtime's form. */
  lemma AccountRoundTrip(account: TransactionAccount)
    ensures FromAccountMeta(ToAccountMeta(account)) == account
  {
  }

  /** The instruction a transaction describes: same program, same data, and
      its accounts converted one by one, in order. */
  function ToInstruction(programId: Pubkey, accounts: seq<TransactionAccount>, data: seq<U8>): (ix: Instruction)
    ensures ix.programId == programId && ix.data == data
    ensures |ix.accounts| == |accounts|
    ensures forall i :: 0 <= i < |accounts| ==> FromAccountMeta(ix.accounts[i]) == accounts[i]
  {
    Instruction(programId, seq(|accounts|, i requires 0 <= i < |accounts| => ToAccountMeta(accounts[i])), data)
  }

  /** One account of the dispatched instruction: marked as a signer when it is
      the multisig's program-derived signer. */
  function SignIfPda(account: AccountMeta, signer: Pubkey): (signed: AccountMeta)
    ensures signed.pubkey == account.pubkey && signed.isWritable == account.isWritable
    ensures signed.isSigner <==> account.isSigner || account.pubkey == signer
  {
    if account.pubkey == signer then account.(isSigner := true) else account
  }

  /** The instruction with the program-derived signer marked as signing:
      every reference keeps its key and writability, and signs exactly when it
      did before or it is the signer's key. */
  function PdaSigned(ix: Instruction, signer: Pubkey): (signed: Instruction)
    ensures signed.programId == ix.programId && signed.data == ix.data
    ensures |signed.accounts| == |ix.accounts|
    ensures forall i :: 0 <= i < |ix.accounts| ==>
      && signed.accounts[i].pubkey == ix.accounts[i].pubkey
      && signed.accounts[i].isWritable == ix.accounts[i].isWritable
      && signed.accounts[i].isSigner == (ix.accounts[i].isSigner || ix.accounts[i].pubkey == signer)
  {
    ix.(accounts := seq(|ix.accounts|, i requires 0 <= i < |ix.accounts| => SignIfPda(ix.accounts[i], signer)))
  }

  /** What execute_transaction dispatches for a stored transaction, stated
      against the stored account list itself. */
  lemma DispatchedInstruction(programId: Pubkey, accounts: seq<TransactionAccount>, data: seq<U8>, signer: Pubkey)
    ensures var ix := PdaSigned(ToInstruction(programId, accounts, data), signer);
      && ix.programId == programId && ix.data == data
      && |ix.accounts| == |accounts|
      && forall i :: 0 <= i < |accounts| ==>
        && ix.accounts[i].pubkey == accounts[i].pubkey
        && ix.accounts[i].isWritable == accounts[i].isWritable
        && ix.accounts[i].isSigner == (accounts[i].isSigner || accounts[i].pubkey == signer)
  {
    var plain := ToInstruction(programId, accounts, data);
    forall i | 0 <= i < |accounts|
      ensures plain.accounts[i].pubkey == accounts[i].pubkey
      ensures plain.accounts[i].isWritable == accounts[i].isWritable
      ensures plain.accounts[i].isSigner == accounts[i].isSigner
    {
      assert FromAccountMeta(plain.accounts[i]) == accounts[i];
    }
  }
}

=== FILE: layout.dfy ===
/**
 * The account sizes the program asks the runtime to allocate.
 */
module Layout {
  import opened Primitives
  import opened Instructions

  /** Every account starts with an 8-byte type discriminator. */
  const DISCRIMINATOR_LEN: nat := 8
  /** A public key occupies 32 bytes. */
  const PUBKEY_LEN: nat := 32

  /** The in-memory sizes of the Rust structs that the size formulas add in.
      They depend on the compiler's struct layout, so they stay parameters. */
  datatype StructSizes = StructSizes(multisig: nat, transaction: nat, transactionAccount: nat)

  /** Borsh prefixes every string and vector with a 4-byte length. */
  const LEN_PREFIX: nat := 4
  /** The serialized multisig without its name bytes: the name's length
      prefix, `threshold` (8), `nonce` (1), `owner_set_seqno` (4) and
      `owners_amount` (8). */
  const MULTISIG_FIXED_LEN: nat := LEN_PREFIX + 8 + 1 + 4 + 8
  /** A serialized account reference: a key and two one-byte flags. */
  const TRANSACTION_ACCOUNT_LEN: nat := PUBKEY_LEN + 1 + 1
  /** The serialized transaction without its variable parts: two keys, the
      length prefixes of name, accounts, data and signers, `did_execute` (1)
      and `owner_set_seqno` (4). */
  const TRANSACTION_FIXED_LEN: nat := 2 * PUBKEY_LEN + 4 * LEN_PREFIX + 1 + 4
  /** A signer hash is a u64. */
  const SIGNER_LEN: nat := 8

  /** The serialized length of a multisig account's data after its discriminator. */
  function MultisigSerializedLen(nameBytes: seq<U8>): nat {
    MULTISIG_FIXED_LEN + |nameBytes|
  }

  /** The serialized length of a transaction account's data after its
      discriminator, with `signers` signer hashes. */
  function TransactionSerializedLen(accounts: seq<TransactionAccount>, data: seq<U8>, nameBytes: seq<U8>,
                                    signers: nat): nat {
    TRANSACTION_FIXED_LEN + |accounts| * TRANSACTION_ACCOUNT_LEN + |data| + |nameBytes| + signers * SIGNER_LEN
  }

  /** Space for a multisig account created with `owners` and a name whose
      UTF-8 encoding is `nameBytes`. Whenever the struct is at least as large
      as its fixed serialized fields, the space holds the serialized account;
      the owner keys it also counts are not stored in it. */
  function MultisigSpaceRequired(sizes: StructSizes, owners: seq<Pubkey>, nameBytes: seq<U8>): (n: nat)
    ensures sizes.multisig >= MULTISIG_FIXED_LEN ==> n >= DISCRIMINATOR_LEN + MultisigSerializedLen(nameBytes)
  {
    DISCRIMINATOR_LEN + sizes.multisig + |owners| * PUBKEY_LEN + |nameBytes|
  }

  /** Space for a transaction account holding `accounts`, `data` and a name
      whose UTF-8 encoding is `nameBytes`. Whenever the structs are at least as
      large as their serialized forms plus one signer hash, the space holds the
      transaction as created, with the proposer as its single signer. */
  function TransactionSpaceRequired(sizes: StructSizes, accounts: seq<TransactionAccount>, data: seq<U8>,
                                    nameBytes: seq<U8>): (n: nat)
    ensures sizes.transaction >= TRANSACTION_FIXED_LEN + SIGNER_LEN && sizes.transactionAccount >= TRANSACTION_ACCOUNT_LEN
      ==> n >= DISCRIMINATOR_LEN + TransactionSerializedLen(accounts, data, nameBytes, 1)
  {
    DISCRIMINATOR_LEN + sizes.transaction + |accounts| * sizes.transactionAccount + |data| + |nameBytes|
  }

  /** Space for an owner record: exactly its discriminator and its two keys. */
  function OwnerSpaceRequired(): (n: nat)
    ensures n == DISCRIMINATOR_LEN + 2 * PUBKEY_LEN
  {
    72
  }

  /** One more owner costs one key; one more byte of the encoded name costs one byte. */
  lemma MultisigSpaceLinear(sizes: StructSizes, owners: seq<Pubkey>, owner: Pubkey, nameBytes: seq<U8>, b: U8)
    ensures MultisigSpaceRequired(sizes, owners + [owner], nameBytes) == MultisigSpaceRequired(sizes, owners, nameBytes) + PUBKEY_LEN
    ensures MultisigSpaceRequired(sizes, owners, nameBytes + [b]) == MultisigSpaceRequired(sizes, owners, nameBytes) + 1
  {
  }

  /** One more account reference costs one struct; one more data byte or
      byte of the encoded name costs one byte. */
  lemma TransactionSpaceLinear(sizes: StructSizes, accounts: seq<TransactionAccount>, account: TransactionAccount,
                               data: seq<U8>, b: U8, nameBytes: seq<U8>)
    ensures TransactionSpaceRequired(sizes, accounts + [account], data, nameBytes)
         == TransactionSpaceRequired(sizes, accounts, data, nameBytes) + sizes.transactionAccount
    ensures TransactionSpaceRequired(sizes, accounts, data + [b], nameBytes)
         == TransactionSpaceRequired(sizes, accounts, data, nameBytes) + 1
    ensures TransactionSpaceRequired(sizes, accounts, data, nameBytes + [b])
         == TransactionSpaceRequired(sizes, accounts, data, nameBytes) + 1
  {
  }
}

=== FILE: multisig.dfy ===
/**
 * The multisig program's accounts and its five instruction handlers.
 *
 * A handler that fails leaves every account as it was: the runtime discards
 * all writes of a failed instruction. The handlers below build new owner
 * records and counts in local variables and write them to the accounts only
 * once nothing can fail any more, which has the same effect.
 */
module MultisigProgram {
  import opened Primitives
  import opened Instructions
  import opened Owners

  /** A multisig account: its address, and the fields the handlers rewrite. */
  class Multisig {
    /** The account's address. */
    const key: Pubkey
    var name: string
    var threshold: U64
    var nonce: U8
    var ownerSetSeqno: U32
    var ownersAmount: U64

    /** A newly allocated, zeroed multisig account at `key`. */
    constructor (key: Pubkey)
      ensures this.key == key && name == [] && threshold == 0 && nonce == 0
      ensures ownerSetSeqno == 0 && ownersAmount == 0
    {
      this.key := key;
      name, threshold, nonce, ownerSetSeqno, ownersAmount := [], 0, 0, 0, 0;
    }

    /** The quorum is positive and the owners can meet it. */
    predicate ThresholdValid()
      reads this
    {
      0 < threshold <= ownersAmount
    }

    /** The owner count equals the number of live owner records of this multisig. */
    predicate CountsOwners(records: Records)
      reads this
    {
      ownersAmount == |OwnedBy(records, key)|
    }
  }

  /** A transaction account: a proposed instruction and its approvals. */
  class Transaction {
    /** The multisig this transaction belongs to. */
    var multisig: Pubkey
    /** Target program of the proposed instruction. */
    var programId: Pubkey
    var name: string
    /** Accounts of the proposed instruction. */
    var accounts: seq<TransactionAccount>
    /** Data of the proposed instruction. */
    var data: seq<U8>
    /** Set once the instruction has been dispatched. */
    var didExecute: bool
    /** The multisig's owner-set sequence number when the transaction was created. */
    var ownerSetSeqno: U32
    /** Hashes of the keys of the owners who have signed. */
    var signers: seq<U64>

    /** A newly allocated, zeroed transaction account. */
    constructor ()
      ensures multisig == 0 && programId == 0 && name == [] && accounts == [] && data == []
      ensures !didExecute && ownerSetSeqno == 0 && signers == []
    {
      multisig, programId, name, accounts, data := 0, 0, [], [], [];
      didExecute, ownerSetSeqno, signers := false, 0, [];
    }
  }

  /** The ledger's owner record accounts. */
  class OwnerAccounts {
    var records: Records

    constructor (records: Records)
      ensures this.records == records
    {
      this.records := records;
    }
  }

  datatype CreateMultisigArgs = CreateMultisigArgs(owners: seq<Pubkey>, threshold: U64, nonce: U8, name: string, bumps: seq<U8>)

  datatype CreateTransactionArgs = CreateTransactionArgs(pid: Pubkey, accs: seq<TransactionAccount>, data: seq<U8>, name: string)

  datatype UpdateOwnersAndThresholdArgs = UpdateOwnersAndThresholdArgs(owners: seq<Pubkey>, bumps: seq<U8>, threshold: U64)

  /** create_multisig: checks the owner list and the threshold, creates one
      owner record per owner at the remaining account of the same position,
      and fills in the new multisig account. */
  method CreateMultisig(multisig: Multisig, store: OwnerAccounts, remaining: seq<Pubkey>, args: CreateMultisigArgs)
    returns (r: Outcome)
    requires |args.owners| < U64_LIMIT
    modifies multisig, store
    ensures !Distinct(args.owners) ==> r == Err(Code(UniqueOwners))
    ensures Distinct(args.owners) && !(0 < args.threshold <= |args.owners|) ==> r == Err(Code(InvalidThreshold))
    ensures r.Err? ==> r.error in {Code(UniqueOwners), Code(InvalidThreshold), Panic, AccountInUse}
    ensures r.Ok? <==>
      && Distinct(args.owners) && 0 < args.threshold <= |args.owners|
      && |args.owners| <= |remaining| && |args.owners| <= |args.bumps|
      && FreshAddresses(old(store.records), remaining, 0, |args.owners|)
    ensures r.Ok? ==>
      && multisig.name == args.name && multisig.threshold == args.threshold && multisig.nonce == args.nonce
      && multisig.ownerSetSeqno == 0 && multisig.ownersAmount == |args.owners|
      && multisig.ThresholdValid()
    ensures r.Ok? ==>
      CreateOwnerRecords(old(store.records), multisig.key, args.owners, remaining, args.bumps, 0) == Success(store.records)
    ensures r.Ok? ==>
      && (forall i :: 0 <= i < |args.owners| ==>
            remaining[i] in store.records && store.records[remaining[i]] == MultisigOwner(multisig.key, args.owners[i]))
      && (forall a :: a in old(store.records) ==> a in store.records && store.records[a] == old(store.records)[a])
      && (forall a :: a in store.records && a !in old(store.records) ==> exists i :: 0 <= i < |args.owners| && remaining[i] == a)
    ensures r.Ok? && OwnedBy(old(store.records), multisig.key) == {} ==> multisig.CountsOwners(store.records)
    ensures r.Err? ==> unchanged(multisig, store)
  {
    r := AssertUniqueOwners(args.owners);
    if r.Err? {
      return;
    }
    if !(args.threshold > 0 && args.threshold <= |args.owners|) {
      return Err(Code(InvalidThreshold));
    }
    if |args.owners| == 0 {
      return Err(Code(InvalidOwnersLen));
    }
    CreateOwnerRecordsSucceeds(store.records, multisig.key, args.owners, remaining, args.bumps, 0);
    var records := store.records;
    var index := 0;
    while index < |args.owners|
      invariant 0 <= index <= |args.owners|
      invariant CreateOwnerRecords(records, multisig.key, args.owners, remaining, args.bumps, index)
             == CreateOwnerRecords(store.records, multisig.key, args.owners, remaining, args.bumps, 0)
    {
      if index >= |remaining| {
        return Err(Panic);
      }
      if index >= |args.bumps| {
        return Err(Panic);
      }
      var built := BuildMultisigOwner(records, remaining[index], multisig.key, args.owners[index]);
      if built.Failure? {
        return Err(built.error);
      }
      records := built.value;
      index := index + 1;
    }
    CreateOwnerRecordsEffect(store.records, multisig.key, args.owners, remaining, args.bumps, 0);
    CreateOwnerRecordsCount(store.records, multisig.key, args.owners, remaining, args.bumps, 0);
    store.records := records;
    multisig.name := args.name;
    multisig.threshold := args.threshold;
    multisig.nonce := args.nonce;
    multisig.ownerSetSeqno := 0;
    multisig.ownersAmount := |args.owners|;
    r := Ok;
  }

  /** create_transaction: the signer must be the owner named by the given
      owner record; the new transaction copies the proposal, records the
      multisig's current owner-set sequence number and counts the proposer as
      its first signer. */
  method CreateTransaction(multisig: Multisig, tx: Transaction, store: OwnerAccounts, ownerAddress: Pubkey,
                           proposer: Pubkey, args: CreateTransactionArgs, hash: Pubkey -> U64)
    returns (r: Outcome)
    modifies tx
    ensures ownerAddress !in store.records ==> r == Err(AccountDidNotDeserialize)
    ensures ownerAddress in store.records ==>
      r == if proposer == store.records[ownerAddress].owner then Ok else Err(Code(InvalidOwner))
    ensures r.Ok? ==>
      && tx.multisig == multisig.key && tx.programId == args.pid && tx.name == args.name
      && tx.accounts == args.accs && tx.data == args.data
      && !tx.didExecute && tx.ownerSetSeqno == multisig.ownerSetSeqno
      && tx.signers == [hash(proposer)]
    ensures r.Err? ==> unchanged(tx)
  {
    if ownerAddress !in store.records {
      return Err(AccountDidNotDeserialize);
    }
    var record := store.records[ownerAddress];
    if proposer != record.owner {
      return Err(Code(InvalidOwner));
    }
    var ownerHash := hash(record.owner);
    tx.multisig := multisig.key;
    tx.programId := args.pid;
    tx.name := args.name;
    tx.accounts := args.accs;
    tx.data := args.data;
    tx.didExecute := false;
    tx.ownerSetSeqno := multisig.ownerSetSeqno;
    tx.signers := [ownerHash];
    r := Ok;
  }

  /** approve: the owner-set sequence numbers must agree, the transaction must
      belong to the multisig and the owner record to the transaction's
      multisig; the hash of the record's owner is then appended to the signers
      unless it is already there. The `owner` signer is never compared with
      the record. */
  method Approve(multisig: Multisig, tx: Transaction, store: OwnerAccounts, ownerAddress: Pubkey,
                 owner: Pubkey, hash: Pubkey -> U64)
    returns (r: Outcome)
    modifies tx`signers
    ensures ownerAddress !in store.records ==> r == Err(AccountDidNotDeserialize)
    ensures ownerAddress in store.records ==>
      r == (var record := store.records[ownerAddress];
            if multisig.ownerSetSeqno != tx.ownerSetSeqno then Err(ConstraintRaw)
            else if tx.multisig != multisig.key then Err(ConstraintHasOne)
            else if record.multisig != tx.multisig then Err(Code(InvalidOwner))
            else if hash(record.owner) in old(tx.signers) then Err(Code(AlreadySigned))
            else Ok)
    ensures r.Ok? ==> tx.signers == old(tx.signers) + [hash(store.records[ownerAddress].owner)]
    ensures Distinct(old(tx.signers)) ==> Distinct(tx.signers)
    ensures r.Err? ==> tx.signers == old(tx.signers)
  {
    if ownerAddress !in store.records {
      return Err(AccountDidNotDeserialize);
    }
    var record := store.records[ownerAddress];
    if multisig.ownerSetSeqno != tx.ownerSetSeqno {
      return Err(ConstraintRaw);
    }
    if tx.multisig != multisig.key {
      return Err(ConstraintHasOne);
    }
    if record.multisig != tx.multisig {
      return Err(Code(InvalidOwner));
    }
    var ownerHash := hash(record.owner);
    if ownerHash in tx.signers {
      return Err(Code(AlreadySigned));
    }
    tx.signers := tx.signers + [ownerHash];
    r := Ok;
  }

  /** update_owners_and_threshold: checks the new owner list, toggles the
      owner record at every remaining account, bumps the owner-set sequence
      number when there was at least one, and sets the threshold, which must
      lie between one and the updated owner count. */
  method UpdateOwnersAndThreshold(multisig: Multisig, store: OwnerAccounts, remaining: seq<Pubkey>,
                                  args: UpdateOwnersAndThresholdArgs)
    returns (r: Outcome)
    modifies multisig`ownersAmount, multisig`ownerSetSeqno, multisig`threshold, store`records
    ensures var toggled := ToggleOwners(old(store.records), old(multisig.ownersAmount), multisig.key,
                                        remaining, args.owners, args.bumps, 0);
      r == if !Distinct(args.owners) then Err(Code(UniqueOwners))
           else if toggled.Failure? then Err(Panic)
           else if |remaining| > 0 && old(multisig.ownerSetSeqno) + 1 == U32_LIMIT then Err(Panic)
           else if !(0 < args.threshold <= toggled.value.ownersAmount) then Err(Code(InvalidThreshold))
           else Ok
    ensures r.Ok? ==>
      var toggled := ToggleOwners(old(store.records), old(multisig.ownersAmount), multisig.key,
                                  remaining, args.owners, args.bumps, 0);
      && store.records == toggled.value.records
      && multisig.ownersAmount == toggled.value.ownersAmount
      && multisig.ownerSetSeqno == old(multisig.ownerSetSeqno) + (if |remaining| > 0 then 1 else 0)
      && multisig.threshold == args.threshold
      && multisig.ThresholdValid()
    ensures r.Ok? && old(multisig.CountsOwners(store.records)) && ClosesOnlyOwn(old(store.records), multisig.key, remaining, 0)
      ==> multisig.CountsOwners(store.records)
    ensures r.Err? ==> unchanged(multisig, store)
  {
    r := AssertUniqueOwners(args.owners);
    if r.Err? {
      return;
    }
    var records := store.records;
    var amount := multisig.ownersAmount;
    var index := 0;
    while index < |remaining|
      invariant 0 <= index <= |remaining|
      invariant ToggleOwners(records, amount, multisig.key, remaining, args.owners, args.bumps, index)
             == ToggleOwners(store.records, multisig.ownersAmount, multisig.key, remaining, args.owners, args.bumps, 0)
    {
      var address := remaining[index];
      if address in records {
        // The account holds an owner record: close it.
        if amount == 0 {
          return Err(Panic);
        }
        records := records - {address};
        amount := amount - 1;
      } else {
        if index >= |args.owners| || index >= |args.bumps| {
          return Err(Panic);
        }
        // The address holds no record, so creating one cannot fail here.
        var built := BuildMultisigOwner(records, address, multisig.key, args.owners[index]);
        records := built.value;
        if amount as int + 1 == U64_LIMIT {
          return Err(Panic);
        }
        amount := amount + 1;
      }
      index := index + 1;
    }
    var seqno := multisig.ownerSetSeqno;
    if |remaining| > 0 {
      if seqno as int + 1 == U32_LIMIT {
        return Err(Panic);
      }
      seqno := seqno + 1;
    }
    if args.threshold == 0 {
      return Err(Code(InvalidThreshold));
    }
    if args.threshold > amount {
      return Err(Code(InvalidThreshold));
    }
    if ClosesOnlyOwn(store.records, multisig.key, remaining, 0) {
      ToggleOwnersCount(store.records, multisig.ownersAmount, multisig.key, remaining, args.owners, args.bumps, 0);
    }
    store.records := records;
    multisig.ownersAmount := amount;
    multisig.ownerSetSeqno := seqno;
    multisig.threshold := args.threshold;
    r := Ok;
  }

  /** execute_transaction: the owner-set sequence numbers must agree and the
      transaction must belong to the multisig; it must not have run yet and
      must carry at least `threshold` signatures. Its instruction is then
      dispatched with the multisig's program-derived signer marked as signing,
      and, if that succeeds, the transaction is marked executed. */
  method ExecuteTransaction(multisig: Multisig, multisigSigner: Pubkey, tx: Transaction, invoke: Instruction -> bool)
    returns (r: Outcome)
    modifies tx`didExecute
    ensures r == if multisig.ownerSetSeqno != tx.ownerSetSeqno then Err(ConstraintRaw)
                 else if tx.multisig != multisig.key then Err(ConstraintHasOne)
                 else if old(tx.didExecute) then Err(Code(AlreadyExecuted))
                 else if |tx.signers| < multisig.threshold then Err(Code(NotEnoughSigners))
                 else if !invoke(PdaSigned(ToInstruction(tx.programId, tx.accounts, tx.data), multisigSigner))
                   then Err(InvocationFailed)
                 else Ok
    ensures r.Ok? ==> tx.didExecute
    ensures r.Err? ==> tx.didExecute == old(tx.didExecute)
  {
    if multisig.ownerSetSeqno != tx.ownerSetSeqno {
      return Err(ConstraintRaw);
    }
    if tx.multisig != multisig.key {
      return Err(ConstraintHasOne);
    }
    if tx.didExecute {
      return Err(Code(AlreadyExecuted));
    }
    var sigCount := |tx.signers|;
    if sigCount < multisig.threshold {
      return Err(Code(NotEnoughSigners));
    }
    var ix := ToInstruction(tx.programId, tx.accounts, tx.data);
    ix := PdaSigned(ix, multisigSigner);
    if !invoke(ix) {
      return Err(InvocationFailed);
    }
    tx.didExecute := true;
    r := Ok;
  }
}

=== FILE: owners.dfy ===
/**
 * Owner records: one small account per (multisig, owner) pair, the
 * uniqueness check on owner lists, and the two loops that create and toggle
 * owner records, each given as a specification function over the record
 * store with its properties proved.
 */
module Owners {
  import opened Primitives

  /** The data of an owner record account. */
  datatype MultisigOwner = MultisigOwner(multisig: Pubkey, owner: Pubkey)

  /** The live owner record accounts of the ledger, by account address. An
      address absent from the map holds no owner record (it does not
      deserialize as one). */
  type Records = map<Pubkey, MultisigOwner>

  /** Addresses of the live records that belong to `multisig`. */
  function OwnedBy(records: Records, multisig: Pubkey): set<Pubkey> {
    set a | a in records && records[a].multisig == multisig
  }

  /** The owner-list check run by create_multisig and update_owners_and_threshold:
      each owner is compared with every later one. It passes exactly when the
      list has no repeated key, and otherwise fails with `UniqueOwners`. */
  method AssertUniqueOwners(owners: seq<Pubkey>) returns (r: Outcome)
    ensures r.Ok? <==> Distinct(owners)
    ensures r.Err? ==> r.error == Code(UniqueOwners)
  {
    var i := 0;
    while i < |owners|
      invariant 0 <= i <= |owners|
      invariant forall p, q :: 0 <= p < i && p < q < |owners| ==> owners[p] != owners[q]
    {
      var j := i + 1;
      while j < |owners|
        invariant i + 1 <= j <= |owners|
        invariant forall q :: i < q < j ==> owners[q] != owners[i]
      {
        if owners[j] == owners[i] {
          return Err(Code(UniqueOwners));
        }
        j := j + 1;
      }
      i := i + 1;
    }
    return Ok;
  }

  /** build_multisig_owner: the system program creates an account at `address`
      and the record (multisig, owner) is written into it. Creation fails when
      the address already holds a record. */
  function BuildMultisigOwner(records: Records, address: Pubkey, multisig: Pubkey, owner: Pubkey): (r: Result<Records>)
    ensures r.Success? <==> address !in records
    ensures r.Failure? ==> r.error == AccountInUse
    ensures r.Success? ==>
      && r.value.Keys == records.Keys + {address}
      && r.value[address] == MultisigOwner(multisig, owner)
      && forall a :: a in records ==> r.value[a] == records[a]
  {
    if address in records then Failure(AccountInUse)
    else Success(records[address := MultisigOwner(multisig, owner)])
  }

  /** The record-creating loop of create_multisig, from position `index` on:
      owner `owners[i]` gets a record at the i-th remaining account, which
      needs that account and the i-th bump to be present. */
  function CreateOwnerRecords(records: Records, multisig: Pubkey, owners: seq<Pubkey>,
                              remaining: seq<Pubkey>, bumps: seq<U8>, index: nat): (r: Result<Records>)
    requires index <= |owners|
    ensures r.Failure? ==> r.error == Panic || r.error == AccountInUse
    decreases |owners| - index
  {
    if index == |owners| then Success(records)
    else if index >= |remaining| then Failure(Panic)
    else if index >= |bumps| then Failure(Panic)
    else
      match BuildMultisigOwner(records, remaining[index], multisig, owners[index])
      case Failure(e) => Failure(e)
      case Success(built) => CreateOwnerRecords(built, multisig, owners, remaining, bumps, index + 1)
  }

  /** The addresses `remaining[lo..hi]` are pairwise different and hold no record. */
  predicate FreshAddresses(records: Records, remaining: seq<Pubkey>, lo: nat, hi: nat)
    requires lo <= hi <= |remaining|
  {
    && (forall p, q :: lo <= p < q < hi ==> remaining[p] != remaining[q])
    && (forall p :: lo <= p < hi ==> remaining[p] !in records)
  }

  lemma OwnedByInsert(records: Records, address: Pubkey, rec: MultisigOwner, multisig: Pubkey)
    requires address !in records
    ensures OwnedBy(records[address := rec], multisig)
         == if rec.multisig == multisig then OwnedBy(records, multisig) + {address} else OwnedBy(records, multisig)
    ensures |OwnedBy(records[address := rec], multisig)|
         == |OwnedBy(records, multisig)| + if rec.multisig == multisig then 1 else 0
  {
    var after := OwnedBy(records[address := rec], multisig);
    if rec.multisig == multisig {
      assert after == OwnedBy(records, multisig) + {address};
    } else {
      assert after == OwnedBy(records, multisig);
    }
  }

  lemma OwnedByRemove(records: Records, address: Pubkey, multisig: Pubkey)
    requires address in records
    ensures |OwnedBy(records - {address}, multisig)|
         == |OwnedBy(records, multisig)| - if records[address].multisig == multisig then 1 else 0
  {
    var after := OwnedBy(records - {address}, multisig);
    if records[address].multisig == multisig {
      assert after == OwnedBy(records, multisig) - {address};
    } else {
      assert after == OwnedBy(records, multisig);
    }
  }

  /** create_multisig's loop succeeds exactly when there is a remaining account
      and a bump for every owner and the accounts for the owners are pairwise
      different addresses that hold no record yet. */
  lemma {:induction false} CreateOwnerRecordsSucceeds(records: Records, multisig: Pubkey, owners: seq<Pubkey>,
                                                      remaining: seq<Pubkey>, bumps: seq<U8>, index: nat)
    requires index <= |owners|
    ensures var r := CreateOwnerRecords(records, multisig, owners, remaining, bumps, index);
      r.Success? <==> (index == |owners| ||
        (|owners| <= |remaining| && |owners| <= |bumps| && FreshAddresses(records, remaining, index, |owners|)))
    decreases |owners| - index
  {
    if index < |owners| && index < |remaining| && index < |bumps| && remaining[index] !in records {
      var built := records[remaining[index] := MultisigOwner(multisig, owners[index])];
      CreateOwnerRecordsSucceeds(built, multisig, owners, remaining, bumps, index + 1);
      if |owners| <= |remaining| && |owners| <= |bumps| {
        if FreshAddresses(records, remaining, index, |owners|) {
          assert FreshAddresses(built, remaining, index + 1, |owners|);
        }
        if FreshAddresses(built, remaining, index + 1, |owners|) {
          assert FreshAddresses(records, remaining, index, |owners|);
        }
      }
    }
  }

  /** After create_multisig's loop succeeds, the i-th remaining account holds
      the record (multisig, owners[i]) for every owner, no earlier record is
      touched, and nothing else is created. */
  lemma {:induction false} CreateOwnerRecordsEffect(records: Records, multisig: Pubkey, owners: seq<Pubkey>,
                                                    remaining: seq<Pubkey>, bumps: seq<U8>, index: nat)
    requires index <= |owners|
    requires CreateOwnerRecords(records, multisig, owners, remaining, bumps, index).Success?
    ensures index < |owners| ==> |owners| <= |remaining|
    ensures var out := CreateOwnerRecords(records, multisig, owners, remaining, bumps, index).value;
      && (forall k :: index <= k < |owners| ==> remaining[k] in out && out[remaining[k]] == MultisigOwner(multisig, owners[k]))
      && (forall a :: a in records ==> a in out && out[a] == records[a])
      && (forall a :: a in out && a !in records ==> exists k :: index <= k < |owners| && remaining[k] == a)
    decreases |owners| - index
  {
    if index < |owners| {
      var built := records[remaining[index] := MultisigOwner(multisig, owners[index])];
      CreateOwnerRecordsEffect(built, multisig, owners, remaining, bumps, index + 1);
      var out := CreateOwnerRecords(built, multisig, owners, remaining, bumps, index + 1).value;
      forall a | a in out && a !in records
        ensures exists k :: index <= k < |owners| && remaining[k] == a
      {
        if a == remaining[index] {
          assert remaining[index] == a;
        }
      }
    }
  }

  /** After create_multisig's loop succeeds, the multisig owns exactly one
      more record per owner. */
  lemma {:induction false} CreateOwnerRecordsCount(records: Records, multisig: Pubkey, owners: seq<Pubkey>,
                                                   remaining: seq<Pubkey>, bumps: seq<U8>, index: nat)
    requires index <= |owners|
    requires CreateOwnerRecords(records, multisig, owners, remaining, bumps, index).Success?
    ensures var out := CreateOwnerRecords(records, multisig, owners, remaining, bumps, index).value;
      |OwnedBy(out, multisig)| == |OwnedBy(records, multisig)| + (|owners| - index)
    decreases |owners| - index
  {
    if index < |owners| {
      var built := records[remaining[index] := MultisigOwner(multisig, owners[index])];
      CreateOwnerRecordsCount(built, multisig, owners, remaining, bumps, index + 1);
      OwnedByInsert(records, remaining[index], MultisigOwner(multisig, owners[index]), multisig);
    }
  }

  /** The multisig's owner count and its owner records, as update_owners_and_threshold changes them. */
  datatype OwnerSet = OwnerSet(records: Records, ownersAmount: U64)

  /** The loop of update_owners_and_threshold, from position `index` on: an
      account that holds a record is closed and the count drops by one; any
      other account becomes a record for `owners[index]` and the count rises
      by one. A missing owner or bump, or a count that would leave the u64
      range, aborts. */
  function ToggleOwners(records: Records, ownersAmount: U64, multisig: Pubkey, remaining: seq<Pubkey>,
                        owners: seq<Pubkey>, bumps: seq<U8>, index: nat): (r: Result<OwnerSet>)
    requires index <= |remaining|
    ensures r.Failure? ==> r.error == Panic
    decreases |remaining| - index
  {
    if index == |remaining| then Success(OwnerSet(records, ownersAmount))
    else if remaining[index] in records then
      if ownersAmount == 0 then Failure(Panic)
      else ToggleOwners(records - {remaining[index]}, ownersAmount - 1, multisig, remaining, owners, bumps, index + 1)
    else if index >= |owners| || index >= |bumps| then Failure(Panic)
    else
      // The address holds no record, so creating one cannot fail here.
      var built := BuildMultisigOwner(records, remaining[index], multisig, owners[index]).value;
      if ownersAmount + 1 == U64_LIMIT then Failure(Panic)
      else ToggleOwners(built, ownersAmount + 1, multisig, remaining, owners, bumps, index + 1)
  }

  /** Every record at a remaining account from `index` on belongs to `multisig`. */
  predicate ClosesOnlyOwn(records: Records, multisig: Pubkey, remaining: seq<Pubkey>, index: nat) {
    forall k :: index <= k < |remaining| && remaining[k] in records ==> records[remaining[k]].multisig == multisig
  }

  /** One closing step of the toggle loop, unfolded. */
  lemma ToggleCloseStep(records: Records, ownersAmount: U64, multisig: Pubkey, remaining: seq<Pubkey>,
                        owners: seq<Pubkey>, bumps: seq<U8>, index: nat)
    requires index < |remaining| && remaining[index] in records
    requires ClosesOnlyOwn(records, multisig, remaining, index)
    requires ToggleOwners(records, ownersAmount, multisig, remaining, owners, bumps, index).Success?
    ensures ownersAmount > 0
    ensures ToggleOwners(records, ownersAmount, multisig, remaining, owners, bumps, index)
         == ToggleOwners(records - {remaining[index]}, ownersAmount - 1, multisig, remaining, owners, bumps, index + 1)
    ensures ClosesOnlyOwn(records - {remaining[index]}, multisig, remaining, index + 1)
    ensures |OwnedBy(records - {remaining[index]}, multisig)| == |OwnedBy(records, multisig)| - 1
  {
    OwnedByRemove(records, remaining[index], multisig);
  }

  /** One creating step of the toggle loop, unfolded. */
  lemma ToggleCreateStep(records: Records, ownersAmount: U64, multisig: Pubkey, remaining: seq<Pubkey>,
                         owners: seq<Pubkey>, bumps: seq<U8>, index: nat)
    requires index < |remaining| && remaining[index] !in records
    requires ClosesOnlyOwn(records, multisig, remaining, index)
    requires ToggleOwners(records, ownersAmount, multisig, remaining, owners, bumps, index).Success?
    ensures index < |owners| && ownersAmount + 1 < U64_LIMIT
    ensures var built := records[remaining[index] := MultisigOwner(multisig, owners[index])];
      && ToggleOwners(records, ownersAmount, multisig, remaining, owners, bumps, index)
         == ToggleOwners(built, ownersAmount + 1, multisig, remaining, owners, bumps, index + 1)
      && ClosesOnlyOwn(built, multisig, remaining, index + 1)
      && |OwnedBy(built, multisig)| == |OwnedBy(records, multisig)| + 1
  {
    var built := records[remaining[index] := MultisigOwner(multisig, owners[index])];
    forall k | index + 1 <= k < |remaining| && remaining[k] in built
      ensures built[remaining[k]].multisig == multisig
    {
      if remaining[k] != remaining[index] {
        assert remaining[k] in records;
      }
    }
    OwnedByInsert(records, remaining[index], MultisigOwner(multisig, owners[index]), multisig);
  }

  /** As long as every record it closes belongs to the multisig, the toggle
      loop keeps the difference between the owner count and the number of the
      multisig's records: a count that equals the number of live records still
      does afterwards. */
  lemma {:induction false} ToggleOwnersCount(records: Records, ownersAmount: U64, multisig: Pubkey, remaining: seq<Pubkey>,
                                             owners: seq<Pubkey>, bumps: seq<U8>, index: nat)
    requires index <= |remaining|
    requires ClosesOnlyOwn(records, multisig, remaining, index)
    requires ToggleOwners(records, ownersAmount, multisig, remaining, owners, bumps, index).Success?
    ensures var out := ToggleOwners(records, ownersAmount, multisig, remaining, owners, bumps, index).value;
      out.ownersAmount - |OwnedBy(out.records, multisig)| == ownersAmount - |OwnedBy(records, multisig)|
    decreases |remaining| - index
  {
    if index < |remaining| {
      var address := remaining[index];
      if address in records {
        ToggleCloseStep(records, ownersAmount, multisig, remaining, owners, bumps, index);
        ToggleOwnersCount(records - {address}, ownersAmount - 1, multisig, remaining, owners, bumps, index + 1);
      } else {
        ToggleCreateStep(records, ownersAmount, multisig, remaining, owners, bumps, index);
        var built := records[address := MultisigOwner(multisig, owners[index])];
        ToggleOwnersCount(built, ownersAmount + 1, multisig, remaining, owners, bumps, index + 1);
      }
    }
  }

  /** With pairwise different remaining accounts, a successful toggle loop
      closes exactly the accounts that held a record, gives every other one
      the record (multisig, owners[k]) for its position k, and leaves every
      other address as it was. */
  lemma {:induction false} ToggleOwnersEffect(records: Records, ownersAmount: U64, multisig: Pubkey, remaining: seq<Pubkey>,
                                              owners: seq<Pubkey>, bumps: seq<U8>, index: nat)
    requires index <= |remaining|
    requires forall p, q :: index <= p < q < |remaining| ==> remaining[p] != remaining[q]
    requires ToggleOwners(records, ownersAmount, multisig, remaining, owners, bumps, index).Success?
    ensures var out := ToggleOwners(records, ownersAmount, multisig, remaining, owners, bumps, index).value.records;
      && (forall k :: index <= k < |remaining| && remaining[k] in records ==> remaining[k] !in out)
      && (forall k :: index <= k < |remaining| && remaining[k] !in records ==>
            k < |owners| && remaining[k] in out && out[remaining[k]] == MultisigOwner(multisig, owners[k]))
      && (forall a :: (forall k :: index <= k < |remaining| ==> remaining[k] != a) ==>
            (a in out <==> a in records) && (a in out ==> out[a] == records[a]))
    decreases |remaining| - index
  {
    if index < |remaining| {
      var address := remaining[index];
      if address in records {
        ToggleOwnersEffect(records - {address}, ownersAmount - 1, multisig, remaining, owners, bumps, index + 1);
      } else {
        var built := records[address := MultisigOwner(multisig, owners[index])];
        ToggleOwnersEffect(built, ownersAmount + 1, multisig, remaining, owners, bumps, index + 1);
      }
    }
  }

  /** The toggle loop never checks whose record it closes: closing another
      multisig's record lowers this multisig's count while its own records
      stay, so count and records disagree afterwards. */
  lemma ClosingForeignRecordBreaksCount()
    ensures var records := map[5 := MultisigOwner(9, 1), 6 := MultisigOwner(7, 2)];
      && |OwnedBy(records, 7)| == 1
      && var r := ToggleOwners(records, 1, 7, [5], [1], [0], 0);
      && r == Success(OwnerSet(map[6 := MultisigOwner(7, 2)], 0))
      && |OwnedBy(r.value.records, 7)| == 1
  {
    var records := map[5 := MultisigOwner(9, 1), 6 := MultisigOwner(7, 2)];
    assert OwnedBy(records, 7) == {6};
    assert records - {5} == map[6 := MultisigOwner(7, 2)];
    assert OwnedBy(map[6 := MultisigOwner(7, 2)], 7) == {6};
  }
}

=== FILE: primitives.dfy ===
/**
 * Keys, machine integers and the error surface shared by every part of the
 * multisig program.
 */
module Primitives {

  /** A Solana public key. The program only ever compares keys for equality,
      so a key is an opaque natural number here rather than 32 bytes. */
  type Pubkey = nat

  const U8_LIMIT: int := 0x100
  const U32_LIMIT: int := 0x1_0000_0000
  const U64_LIMIT: int := 0x1_0000_0000_0000_0000

  type U8 = x: int | 0 <= x < U8_LIMIT
  type U32 = x: int | 0 <= x < U32_LIMIT
  type U64 = x: int | 0 <= x < U64_LIMIT

  /** The program's own error enum, variant for variant. */
  datatype ErrorCode =
    | InvalidOwner
    | InvalidOwnersLen
    | NotEnoughSigners
    | TransactionAlreadySigned
    | Overflow
    | UnableToDelete
    | AlreadyExecuted
    | InvalidThreshold
    | UniqueOwners
    | AlreadySigned

  /** Why an instruction aborts. Every abort discards all of the
      instruction's writes. */
  datatype Error =
    | Code(code: ErrorCode)       // a `require!` in a handler failed
    | AccountDidNotDeserialize    // an account passed as an owner record holds none
    | ConstraintRaw               // the owner-set sequence number constraint failed
    | ConstraintHasOne            // `has_one = multisig` failed
    | AccountInUse                // the system program refused to create an owner record
    | Panic                       // an `unwrap` on a missing element, or integer over/underflow
    | InvocationFailed            // the instruction dispatched by execute failed

  datatype Outcome = Ok | Err(error: Error)

  datatype Result<T> = Success(value: T) | Failure(error: Error)

  /** No two positions of `s` hold equal elements. */
  predicate Distinct<T(==)>(s: seq<T>) {
    forall i, j :: 0 <= i < j < |s| ==> s[i] != s[j]
  }
}
